=== FILE: README.md ===
# Major.year.week.build versioning, modelled in Dafny

This project models the one calculation inside the GitHub Action
`action-csharp-majoryearweekbuild-version` (`index.js`). The action numbers every build
`major.yy.week.build` and writes that number into each project's
`Properties/AssemblyInfo.cs`. The model has three parts:

- **Week of the year** (`Weeks`, `week_number.dfy`). `getWeekNumber` rounds the
  milliseconds since local 1 January 00:00 up to whole days, then rounds the days up
  to whole weeks. Integer ceiling division gives the same result with no floating
  point. This is not ISO 8601 numbering: midnight on 1 January is week 0.
- **Build index** (`BuildIndex`, `build_index.dfy`). The listed workflow runs are
  filtered to those whose creation week equals the current week, in listed order.
  `firstRunNumberOfWeek` is the number of the **last** kept run, or the current run
  number when no run is kept. The build index is the current run number minus that
  number. The suffix is `yy.week.build`, with `yy` the year's JavaScript remainder by 100.
- **Version-line patching** (`VersionLine`, `Patcher`). A hand-written matcher
  stands in for the pattern
  `(^|\r\n|\n)(\[assembly: AssemblyVersion\([^)]+\)])($|\r\n|\n |\t)`. The pattern
  has no flags, so `^` and `$` are the ends of the whole text. The major version is
  the leftmost `"digits.` inside the captured declaration. The replacement goes into
  the first occurrence of the declaration text anywhere in the file, which may come
  before the anchored match. As in the code, the version written starts with the
  match array `["\"5.", "5"]` rendered as `"5.,5`. So `[assembly: AssemblyVersion("5.0.0.0")]`
  with suffix `24.2.3` becomes `[assembly: AssemblyVersion(""5.,5.24.2.3")]`.

`Action` (`action.dfy`) composes these: the suffix is computed once, then each file
text is patched on its own. `Decimal` renders integers the way a template literal
does (`${n}`) and parses them back. `Wrappers` holds `Option`.
`Intended` (`intended.dfy`) holds the corrected definitions, the readers that parse a
written version back, and the lemmas that compare them with the code as written.

Three behaviours of the code are easy to misread, and the model keeps each as written:

- Midnight on 1 January is week 0, not week 1. Every later instant of the first
  seven days is week 1.
- The code takes the last kept run as the first run of the week. That run has the
  smallest number only when the listing is newest first
  (`BuildIndex.NewestFirstGivesMinimum`). The hosting API lists runs in that order.
- The code writes `"5.,5.24.2.3`, not `5.24.2.3` (see Findings).

## Model

| member | source | states |
|---|---|---|
| `Weeks.CeilDiv` | index.js:70-71 | `Math.ceil(a / b)` on naturals is the unique r with (r-1)·b < a ≤ r·b |
| `Weeks.WeekNumber` | index.js:67-72 | `getWeekNumber`: rounding the elapsed time up to days and then to weeks puts it in week w exactly when it lies in ((w-1) weeks, w weeks] after New Year |
| `Weeks.WeekBucket` | index.js:67-72 | the two-step rounding, to days and then to weeks, equals one rounding up to whole weeks |
| `Weeks.WeekZeroExactlyAtNewYear` | index.js:69-71 | the week is 0 if and only if the instant is exactly midnight on 1 January |
| `Weeks.FirstWeek` | index.js:69-71 | every instant after midnight and within the first 7 days is week 1 |
| `Weeks.WeekAtMost53` | index.js:69-71 | every instant less than 366 days after New Year is in week 53 or earlier, and in week 1 or later unless it is midnight on 1 January |
| `Weeks.WeekMonotone` | index.js:67-72 | a later instant of the year never has a smaller week |
| `BuildIndex.SameWeekRuns` | index.js:25-26 | the kept runs all have the current week, a run is kept exactly when it is listed and its week matches, and there are never more kept runs than listed ones |
| `BuildIndex.SameWeekRunsCount` | index.js:25-26 | each run is kept exactly as many times as it is listed when its week matches, and never otherwise |
| `BuildIndex.SameWeekRunsAppend` | index.js:26 | filtering a concatenation is the concatenation of the filtered parts, so kept runs stay in listed order |
| `BuildIndex.FirstRunNumberOfWeek` | index.js:28-31 | with nothing kept it is the current run number; otherwise it is the number of one of the kept runs, and when the kept runs are newest first it is no larger than any kept number |
| `BuildIndex.NewestFirstLastIsSmallest` | index.js:30 | in a newest-first listing the last run has the smallest number |
| `BuildIndex.VersionOf` | index.js:25-34 | the year part is the year's JavaScript remainder by 100, the week is the current week, the build index is 0 when no listed run shares that week, and otherwise it is the current run number minus the number of some listed run of that week |
| `BuildIndex.NoSameWeekRunsMeansBuildZero` | index.js:28-33 | with no listed run in the current week, the first run number is the current one and the build index is 0 |
| `BuildIndex.SomeSameWeekRunMeansLastKept` | index.js:29-33 | when some listed run is in the current week, the build index is measured from the last kept run, whatever its number |
| `BuildIndex.NewestFirstKept` | index.js:25-26 | filtering a newest-first listing leaves it newest first |
| `BuildIndex.NewestFirstGivesMinimum` | index.js:29-33 | if the kept runs are newest first and none is newer than the current run, the first run number is one of the kept numbers and no larger than any of them, so it is the smallest, and the build index is not negative |
| `BuildIndex.YearTwoDigit` | index.js:34 | `year % 100` with JavaScript's sign-of-dividend remainder: in [0, 99] for years from 0 on, in [-99, 0] before, and congruent to the year modulo 100 |
| `BuildIndex.VersionSuffix` | index.js:34 | the rendered `yy.week.build` suffix splits into three fields that parse back to the same three numbers, each written as a template literal writes an integer: no leading zero, a minus sign only before a non-zero value |
| `BuildIndex.SuffixTextIsUnique` | index.js:34 | any text that reads back as the same parts and writes every field that way is exactly the rendered suffix, so the contract fixes the text and not only the numbers |
| `Decimal.ParseIntToString` | index.js:34 | a template literal's rendering of an integer parses back to that integer |
| `Decimal.IntToString` | index.js:34 | `${i}` starts with a minus sign exactly when i is negative, and is a canonical decimal text: digits after an optional sign, no leading zero, no `-0` |
| `Decimal.CanonicalIsRendering` | index.js:34 | a canonical decimal text that parses as i is `${i}` and nothing else |
| `VersionLine.DeclarationEnd` | index.js:42 | a declaration starting at d ends just after the first `)` following the head, if that `)` is followed by `]` and preceded by at least one character; otherwise none starts there |
| `VersionLine.DeclarationEndUnique` | index.js:42 | a declaration has only one possible end |
| `VersionLine.FindVersionLine` | index.js:42-46 | the result is the leftmost declaration preceded by start of text or a newline and followed by end of text, `\r\n`, newline-space or tab; none is returned only when no such declaration exists |
| `VersionLine.LeftmostDeclarationIsLeftmostMatch` | index.js:42 | a later declaration always begins a later match of the pattern, so the leftmost match is the declaration with the smallest start |
| `Patcher.ReplaceFirst` | index.js:57 | `replace` with a string pattern: a text without the pattern is returned unchanged, and otherwise the first occurrence, and only it, is replaced, with the text around it kept |
| `Patcher.MatchArrayString` | index.js:55 | a template literal renders the match array `['"M.', 'M']` as its two elements joined by a comma |
| `Patcher.NewDeclaration` | index.js:55-57 | the declaration written back is itself a version line again whenever the digits and the suffix hold no `)` |
| `Patcher.PatchFile` | index.js:42-57 | the `forEach` callback for one file: it patches only a file that holds a version line, and skips for a missing version line only a file that holds none |
| `Patcher.MajorAfterPrefix` | index.js:49 | after a prefix with no quote except possibly its last character, the leftmost `"digits.` is the one opening `"M.` |
| `Patcher.FindMajor` | index.js:49-53 | the result is the leftmost `"` followed by one or more digits and a `.` in the declaration; none is returned only when there is no such place |
| `Patcher.SkipWithoutVersionLine` | index.js:42-46 | the file is skipped for a missing version line exactly when no version line exists, and a skipped file keeps its text, because `FileAfter` writes nothing for a skip |
| `Patcher.SkipWithoutMajorVersion` | index.js:48-53 | given the leftmost version line, the file is skipped for a missing major version exactly when that declaration has no `"digits.` |
| `Patcher.PatchReplacesFirstOccurrence` | index.js:48-57 | the new text is the old text with the first occurrence of the declaration, which is at or before the anchored match, replaced by the new declaration; all text before and after that occurrence is unchanged |
| `Patcher.ReplacementIsLiteral` | index.js:57 | the new declaration contains no `$`, so `replace` inserts it without pattern substitution |
| `Patcher.PatchSingleDeclaration` | index.js:42-57 | a file that is exactly one declaration with a leading major version M becomes exactly the new declaration built from M |
| `Action.RunAction` | index.js:8-59 | `main`: one outcome per file, every file patched with the same suffix, and that suffix reads back as the computed year, week and build index with every field written canonically, which by `BuildIndex.SuffixTextIsUnique` makes it the text `${yy}.${week}.${buildId}` |
| `Action.PatchAll` | index.js:39-59 | there is one outcome per file, and each file's outcome depends only on that file's text and the suffix |
| `Action.WorkedExampleParts` | index.js:25-34 | on 10 January 2024, with runs 102 and 100 of week 2 listed newest first and current run 103, the parts are 24, 2 and 3 |
| `Action.WorkedExampleSuffix` | index.js:34 | those parts render as `24.2.3` |
| `Action.WorkedExamplePatch` | index.js:42-57 | `[assembly: AssemblyVersion("5.0.0.0")]` with suffix `24.2.3` becomes `[assembly: AssemblyVersion(""5.,5.24.2.3")]` |
| `Action.WorkedExample` | index.js:8-59 | the whole run of the action on that example yields that single patched file |
| `Intended.MatchArrayExample` | index.js:55-57 | the declaration written for major 5 and suffix 24.2.3 is `""5.,5.24.2.3`, where `"5.24.2.3` was meant |
| `Intended.AsWrittenDeclarationUnreadable` | index.js:55-57 | the declaration as written never reads back as a dotted numeric version |
| `Intended.AsWrittenMajorSurvivesRepatch` | index.js:49-57 | a later run still finds the same major version in the declaration as written, so the malformed prefix does not grow |
| `Intended.QuotedFieldUnreadable` | index.js:55 | a version string whose first field begins with a quote never reads back as a version |
| `Intended.VersionStringRoundTrip` | index.js:55 | a major version, a dot and a rendered suffix read back as that major version and those parts |
| `Intended.IntendedDeclarationRoundTrip` | index.js:55-57 | the intended declaration reads back as the kept major version and the computed year, week and build index |
| `Intended.SameYearWeekRuns` | index.js:25-26 | the intended filter keeps exactly the runs of the current week of the current year, with their multiplicities |
| `Intended.PriorYearRunCountsThisWeek` | index.js:25-33 | as written, a run from the same week number of the previous year is taken as this week's first run |
| `Intended.IntendedIgnoresOtherYears` | index.js:25-33 | with the intended filter, runs from other weeks or other years never move the build index off 0 |
| `Intended.SameYearWeekRunsSkip` | index.js:26 | the intended filter drops a run outside the current week of the current year wherever it is listed |
| `Intended.IntendedIgnoresOtherYearRun` | index.js:25-33 | with the intended filter, adding a run from another year anywhere in the listing leaves the version unchanged, before, among or after this week's runs |

## Left out

- The GitHub API calls (`getWorkflowRun`, `listWorkflowRuns`, index.js:13-24) are network calls. The run listing is an input sequence, taken as complete. Pagination is not modelled.
- Environment variables (`GITHUB_REPOSITORY`, `GITHUB_RUN_ID`, `GITHUB_RUN_NUMBER`, `GITHUB_WORKSPACE`) and the string-to-number coercion in `GITHUB_RUN_NUMBER - firstRunNumberOfWeek` are not modelled. The current run number is an integer parameter.
- Directory listing, the existence check, reading and writing `AssemblyInfo.cs` (index.js:37-41, 58) are I/O. Each file is one text in, and either new text or a skip out (`Patcher.FileAfter`).
- `new Date()`, the local time zone and daylight saving (index.js:8, 25, 69) are not modelled. A moment is given as its calendar year and the milliseconds since local 1 January 00:00 of that year. The `date || new Date()` default (index.js:68) is never used, because every caller passes a date.
- The `warning`, `info` and `setFailed` calls (index.js:44, 51, 56, 61) are log output. Warnings are the `Skipped` outcomes. The info message and the exception path are not modelled.
- JavaScript numbers are doubles. The model uses unbounded integers, which agree with doubles for run numbers and elapsed times below 2^53. `Math.ceil` of a floating-point quotient agrees with integer ceiling division for the elapsed times within one year.
- There is no general regular-expression engine. The two fixed patterns have hand-written matchers.
- `Action.RunAction` uses the code as written, meaning the match-array rendering and the year-blind filter. The corrected definitions in `Intended` are proved beside it and are not substituted into it, because the model exists to reproduce what the action does.

## Findings

| source | as written | input that shows it | evidently intended | confidence | as-written member | corrected member |
|---|---|---|---|---|---|---|
| index.js:55 | interpolates the whole match array `majorVersion`, which renders as `"5.,5` | `[assembly: AssemblyVersion("5.0.0.0")]` with suffix `24.2.3` becomes `[assembly: AssemblyVersion(""5.,5.24.2.3")]` | interpolate the captured digits `majorVersion[1]`, giving `"5.24.2.3"`: the pattern captures `(\d+)` into a variable named `majorVersion`, and `""5.,5.24.2.3"` is not even a valid C# string argument | high; not executed | `Intended.AsWrittenDeclarationUnreadable` | `Intended.IntendedDeclarationRoundTrip` |
| index.js:26 | compares only week numbers, each computed within its own year | now 10 January 2024, listed run 40 from 10 January 2023, current run 100: build index 60 instead of 0 | also require the run's year to equal the current year: each week number is counted from its own year's 1 January, so equal week numbers of different years name different weeks | medium (needs a year-old run in the listed page); not executed | `Intended.PriorYearRunCountsThisWeek` | `Intended.IntendedIgnoresOtherYearRun` |

=== FILE: action.dfy ===
/**
 The action end to end, with the hosting service and the filesystem taken out:
 the version suffix is computed once from the clock, the run number and the run
 listing, and then every AssemblyInfo.cs text is patched on its own.
 */
module Action {
  import opened Wrappers
  import opened Decimal
  import opened Weeks
  import opened BuildIndex
  import opened VersionLine
  import opened Patcher
  import opened Intended

  /** The `forEach` over the project files: one outcome per file, each from that file alone. */
  function PatchAll(files: seq<string>, suffix: string): (outcomes: seq<PatchOutcome>)
    ensures |outcomes| == |files|
    ensures forall i :: 0 <= i < |files| ==> outcomes[i] == PatchFile(files[i], suffix)
    decreases |files|
  {
    if |files| == 0 then [] else [PatchFile(files[0], suffix)] + PatchAll(files[1..], suffix)
  }

  /**
   `main`: one suffix, which reads back as the computed version parts and writes
   each of them as a template literal does, is computed once and every file is
   patched with it.
   */
  function RunAction(now: Timestamp, currentRunNumber: int, runs: seq<Run>, files: seq<string>): (outcomes: seq<PatchOutcome>)
    ensures |outcomes| == |files|
    ensures exists sfx ::
      && ParseSuffix(sfx) == Some(VersionOf(now, currentRunNumber, runs))
      && (forall f :: f in Split(sfx, '.') ==> Canonical(f))
      && forall i :: 0 <= i < |files| ==> outcomes[i] == PatchFile(files[i], sfx)
  {
    var sfx := VersionSuffix(VersionOf(now, currentRunNumber, runs));
    assert ParseSuffix(sfx) == Some(VersionOf(now, currentRunNumber, runs));
    PatchAll(files, sfx)
  }

  /** On 10 January 2024 (week 2), with this week's runs 102 and 100 listed newest first and current run 103. */
  lemma WorkedExampleParts()
    ensures var now := Timestamp(2024, 9 * MillisPerDay);
      var runs := [Run(102, Timestamp(2024, 9 * MillisPerDay - 3600000)), Run(100, Timestamp(2024, 8 * MillisPerDay))];
      VersionOf(now, 103, runs) == VersionParts(24, 2, 3)
  {
    var now := Timestamp(2024, 9 * MillisPerDay);
    var runs := [Run(102, Timestamp(2024, 9 * MillisPerDay - 3600000)), Run(100, Timestamp(2024, 8 * MillisPerDay))];
    var a, b := runs[0], runs[1];
    WeekBucket(9 * MillisPerDay);
    WeekBucket(9 * MillisPerDay - 3600000);
    WeekBucket(8 * MillisPerDay);
    assert WeekOf(now) == 2 && WeekOf(a.created) == 2 && WeekOf(b.created) == 2;
    assert runs[1..] == [b];
    assert [b][1..] == [];
    assert SameWeekRuns([b], 2) == [b];
    assert SameWeekRuns(runs, 2) == [a] + [b];
    assert YearTwoDigit(2024) == 24;
  }

  lemma WorkedExampleSuffix()
    ensures VersionSuffix(VersionParts(24, 2, 3)) == "24.2.3"
  {
    assert NatToString(2) == "2";
    assert NatToString(24) == "24";
  }

  /** A file holding `[assembly: AssemblyVersion("5.0.0.0")]` gets the declaration built from the match array. */
  lemma WorkedExamplePatch()
    ensures PatchFile("[assembly: AssemblyVersion(\"5.0.0.0\")]", "24.2.3")
      == Patched("[assembly: AssemblyVersion(\"\"5.,5.24.2.3\")]")
  {
    var text := "[assembly: AssemblyVersion(\"5.0.0.0\")]";
    assert Head + "\"" + "5" + "." + "0.0.0\"" + Tail == text;
    MatchArrayExample();
    PatchSingleDeclaration(text, "5", "0.0.0\"", "24.2.3");
  }

  /** The worked example end to end. */
  lemma WorkedExample()
    ensures var now := Timestamp(2024, 9 * MillisPerDay);
      var runs := [Run(102, Timestamp(2024, 9 * MillisPerDay - 3600000)), Run(100, Timestamp(2024, 8 * MillisPerDay))];
      RunAction(now, 103, runs, ["[assembly: AssemblyVersion(\"5.0.0.0\")]"])
        == [Patched("[assembly: AssemblyVersion(\"\"5.,5.24.2.3\")]")]
  {
    WorkedExampleParts();
    WorkedExampleSuffix();
    WorkedExamplePatch();
  }
}

=== FILE: build_index.dfy ===
/**
 The version numbering of `main`: the current week, the runs of the workflow
 that fall in it, the first run number of the week, the build index within the
 week, and the `yy.week.build` suffix written after the major version.
 */
module BuildIndex {
  import opened Wrappers
  import opened Decimal
  import opened Weeks

  /** A local date and time: the calendar year and the milliseconds since 1 January 00:00 of that year. */
  datatype Timestamp = Timestamp(year: int, sinceNewYear: nat)

  /** A workflow run as listed by the hosting service: its run number and creation time. */
  datatype Run = Run(number: int, created: Timestamp)

  /** The three computed parts of the version: two-digit year, week and build index. */
  datatype VersionParts = VersionParts(yearTwoDigit: int, week: nat, buildId: int)

  function WeekOf(t: Timestamp): nat {
    WeekNumber(t.sinceNewYear)
  }

  /** The runs whose creation week equals `week`, in the order they were listed. */
  function SameWeekRuns(runs: seq<Run>, week: nat): (kept: seq<Run>)
    ensures |kept| <= |runs|
    ensures forall i :: 0 <= i < |kept| ==> WeekOf(kept[i].created) == week
    ensures forall r :: r in kept <==> r in runs && WeekOf(r.created) == week
    decreases |runs|
  {
    if |runs| == 0 then []
    else (if WeekOf(runs[0].created) == week then [runs[0]] else []) + SameWeekRuns(runs[1..], week)
  }

  /** Each run is kept exactly as many times as it is listed when its week matches, and never otherwise. */
  lemma {:induction false} SameWeekRunsCount(runs: seq<Run>, week: nat)
    ensures forall r :: multiset(SameWeekRuns(runs, week))[r] == (if WeekOf(r.created) == week then multiset(runs)[r] else 0)
    decreases |runs|
  {
    if |runs| > 0 {
      SameWeekRunsCount(runs[1..], week);
      assert runs == [runs[0]] + runs[1..];
      assert multiset(runs) == multiset([runs[0]]) + multiset(runs[1..]);
    }
  }

  /** Filtering distributes over concatenation: the relative order of the kept runs is the listed order. */
  lemma {:induction false} SameWeekRunsAppend(a: seq<Run>, b: seq<Run>, week: nat)
    ensures SameWeekRuns(a + b, week) == SameWeekRuns(a, week) + SameWeekRuns(b, week)
    decreases |a|
  {
    if |a| > 0 {
      assert (a + b)[1..] == a[1..] + b;
      SameWeekRunsAppend(a[1..], b, week);
    } else {
      assert a + b == b;
    }
  }

  /**
   `firstRunNumberOfWeek`: the number of the last kept run, or the current run
   number when none is kept. It is the smallest kept number only when the kept
   runs are listed newest first.
   */
  function FirstRunNumberOfWeek(kept: seq<Run>, currentRunNumber: int): (first: int)
    ensures |kept| == 0 ==> first == currentRunNumber
    ensures |kept| > 0 ==> exists r :: r in kept && first == r.number
    ensures NewestFirst(kept) ==> forall r :: r in kept ==> first <= r.number
  {
    if |kept| > 0 then
      NewestFirstLastIsSmallest(kept);
      assert kept[|kept| - 1] in kept;
      kept[|kept| - 1].number
    else
      currentRunNumber
  }

  /** `now.getFullYear() % 100`: JavaScript's remainder takes the sign of the dividend. */
  function YearTwoDigit(year: int): (yy: int)
    ensures year >= 0 ==> 0 <= yy <= 99
    ensures year < 0 ==> -99 <= yy <= 0
    ensures (year - yy) % 100 == 0
  {
    if year >= 0 then year % 100 else -((-year) % 100)
  }

  /**
   The version parts of `main`: the year's last two digits, the current week, and
   a build index that is 0 when no listed run shares
   the current week, and otherwise is measured from one of the listed runs that does.
   */
  function VersionOf(now: Timestamp, currentRunNumber: int, runs: seq<Run>): (v: VersionParts)
    ensures v.yearTwoDigit == YearTwoDigit(now.year)
    ensures v.week == WeekOf(now)
    ensures (forall i :: 0 <= i < |runs| ==> WeekOf(runs[i].created) != v.week) ==> v.buildId == 0
    ensures (exists i :: 0 <= i < |runs| && WeekOf(runs[i].created) == v.week) ==>
      exists r :: r in runs && WeekOf(r.created) == v.week && v.buildId == currentRunNumber - r.number
  {
    var week := WeekOf(now);
    var kept := SameWeekRuns(runs, week);
    assert |kept| > 0 ==> kept[|kept| - 1] in kept;
    VersionParts(YearTwoDigit(now.year), week, currentRunNumber - FirstRunNumberOfWeek(kept, currentRunNumber))
  }

  /**
   `versionWithoutMajor`: the three parts rendered in decimal, joined by dots.
   It reads back as those parts, and each field is written the way a template
   literal writes an integer.
   */
  function VersionSuffix(v: VersionParts): (s: string)
    ensures ParseSuffix(s) == Some(v)
    ensures forall f :: f in Split(s, '.') ==> Canonical(f)
  {
    RenderedPartsParse(v.yearTwoDigit, v.week, v.buildId);
    NatIsCanonical(v.week);
    IntToString(v.yearTwoDigit) + "." + NatToString(v.week) + "." + IntToString(v.buildId)
  }

  lemma RenderedPartsParse(yy: int, week: nat, buildId: int)
    ensures Split(IntToString(yy) + "." + NatToString(week) + "." + IntToString(buildId), '.')
      == [IntToString(yy), NatToString(week), IntToString(buildId)]
    ensures ParseSuffix(IntToString(yy) + "." + NatToString(week) + "." + IntToString(buildId))
      == Some(VersionParts(yy, week, buildId))
  {
    var y, w, b := IntToString(yy), NatToString(week), IntToString(buildId);
    DigitsHaveNoDot(y);
    DigitsHaveNoDot(w);
    DigitsHaveNoDot(b);
    assert y + "." + w + "." + b == y + ['.'] + (w + ['.'] + b);
    SplitAtFirstSeparator(y, '.', w + ['.'] + b);
    SplitAtFirstSeparator(w, '.', b);
    SplitWithoutSeparator(b, '.');
    ParseIntToString(yy);
    ParseNatToString(week);
    ParseIntToString(buildId);
  }

  lemma NatIsCanonical(n: nat)
    ensures Canonical(NatToString(n))
  {
  }

  /**
   The suffix text is determined by the parts: any text that reads back as `v`
   and writes each field canonically is `VersionSuffix(v)`.
   */
  lemma SuffixTextIsUnique(sfx: string, v: VersionParts)
    requires ParseSuffix(sfx) == Some(v)
    requires forall f :: f in Split(sfx, '.') ==> Canonical(f)
    ensures sfx == VersionSuffix(v)
  {
    var y, w, b := IntToString(v.yearTwoDigit), NatToString(v.week), IntToString(v.buildId);
    FieldsAreRenderings(sfx, v);
    JoinSplit(sfx, '.');
    JoinThree(y, w, b, '.');
  }

  /** Each canonical field of a suffix that reads back as `v` is the rendering of its part. */
  lemma FieldsAreRenderings(sfx: string, v: VersionParts)
    requires ParseSuffix(sfx) == Some(v)
    requires forall f :: f in Split(sfx, '.') ==> Canonical(f)
    ensures Split(sfx, '.') == [IntToString(v.yearTwoDigit), NatToString(v.week), IntToString(v.buildId)]
  {
    var fields := Split(sfx, '.');
    assert fields[0] in fields && fields[1] in fields && fields[2] in fields;
    CanonicalIsRendering(fields[0], v.yearTwoDigit);
    assert ParseInt(fields[1]) == Some(v.week as int);
    CanonicalIsRendering(fields[1], v.week);
    CanonicalIsRendering(fields[2], v.buildId);
    assert IntToString(v.week) == NatToString(v.week);
    assert fields == [fields[0], fields[1], fields[2]];
  }

  lemma JoinThree(a: string, b: string, c: string, sep: char)
    ensures Join([a, b, c], sep) == a + [sep] + b + [sep] + c
  {
    assert [a, b, c][1..] == [b, c];
    assert [b, c][1..] == [c];
    assert Join([b, c], sep) == b + [sep] + c;
    assert a + [sep] + (b + [sep] + c) == a + [sep] + b + [sep] + c;
  }

  /** Reads a `yy.week.build` suffix back. */
  function ParseSuffix(s: string): Option<VersionParts> {
    var fields := Split(s, '.');
    if |fields| != 3 then None
    else
      match (ParseInt(fields[0]), ParseNat(fields[1]), ParseInt(fields[2]))
      case (Some(y), Some(w), Some(b)) => Some(VersionParts(y, w, b))
      case _ => None
  }

  /** With no listed run in the current week the current run is the first, and its build index is 0. */
  lemma NoSameWeekRunsMeansBuildZero(now: Timestamp, currentRunNumber: int, runs: seq<Run>)
    requires forall i :: 0 <= i < |runs| ==> WeekOf(runs[i].created) != WeekOf(now)
    ensures FirstRunNumberOfWeek(SameWeekRuns(runs, WeekOf(now)), currentRunNumber) == currentRunNumber
    ensures VersionOf(now, currentRunNumber, runs).buildId == 0
  {
  }

  /** Otherwise the first run of the week is the LAST same-week run of the listing, whatever its number. */
  lemma SomeSameWeekRunMeansLastKept(now: Timestamp, currentRunNumber: int, runs: seq<Run>, i: nat)
    requires i < |runs| && WeekOf(runs[i].created) == WeekOf(now)
    ensures var kept := SameWeekRuns(runs, WeekOf(now));
      && |kept| > 0
      && VersionOf(now, currentRunNumber, runs).buildId == currentRunNumber - kept[|kept| - 1].number
  {
    assert runs[i] in runs;
  }

  predicate NewestFirst(runs: seq<Run>) {
    forall i, j :: 0 <= i < j < |runs| ==> runs[i].number > runs[j].number
  }

  lemma NewestFirstCons(x: Run, rest: seq<Run>)
    requires NewestFirst(rest)
    requires forall r :: r in rest ==> x.number > r.number
    ensures NewestFirst([x] + rest)
  {
    var s := [x] + rest;
    forall i, j | 0 <= i < j < |s| ensures s[i].number > s[j].number {
      assert s[j] == rest[j - 1];
      if i > 0 {
        assert s[i] == rest[i - 1];
      }
    }
  }

  lemma NewestFirstTail(runs: seq<Run>)
    requires |runs| > 0 && NewestFirst(runs)
    ensures NewestFirst(runs[1..])
    ensures forall r :: r in runs[1..] ==> runs[0].number > r.number
  {
    var tail := runs[1..];
    forall i, j | 0 <= i < j < |tail| ensures tail[i].number > tail[j].number {
      assert tail[i] == runs[i + 1] && tail[j] == runs[j + 1];
    }
    forall r | r in tail ensures runs[0].number > r.number {
      var m :| 0 <= m < |tail| && tail[m] == r;
      assert tail[m] == runs[m + 1];
    }
  }

  /** Filtering keeps a newest-first listing newest first. */
  lemma {:induction false} NewestFirstKept(runs: seq<Run>, week: nat)
    requires NewestFirst(runs)
    ensures NewestFirst(SameWeekRuns(runs, week))
    decreases |runs|
  {
    if |runs| > 0 {
      var tail := runs[1..];
      NewestFirstTail(runs);
      NewestFirstKept(tail, week);
      var rest := SameWeekRuns(tail, week);
      if WeekOf(runs[0].created) == week {
        NewestFirstCons(runs[0], rest);
        assert SameWeekRuns(runs, week) == [runs[0]] + rest;
      } else {
        assert SameWeekRuns(runs, week) == rest;
      }
    }
  }

  /**
   When the same-week runs are listed newest first and none is newer than the
   current run, the last of them carries the smallest run number of the week,
   and the build index is never negative.
   */
  lemma NewestFirstGivesMinimum(now: Timestamp, currentRunNumber: int, runs: seq<Run>)
    requires NewestFirst(SameWeekRuns(runs, WeekOf(now)))
    requires forall r :: r in SameWeekRuns(runs, WeekOf(now)) ==> r.number <= currentRunNumber
    ensures VersionOf(now, currentRunNumber, runs).buildId >= 0
    ensures var kept := SameWeekRuns(runs, WeekOf(now));
      |kept| > 0 ==>
        && (exists r :: r in kept && FirstRunNumberOfWeek(kept, currentRunNumber) == r.number)
        && forall r :: r in kept ==> FirstRunNumberOfWeek(kept, currentRunNumber) <= r.number
  {
  }

  /** In a newest-first listing the last run carries the smallest number. */
  lemma NewestFirstLastIsSmallest(runs: seq<Run>)
    requires |runs| > 0
    ensures NewestFirst(runs) ==> forall r :: r in runs ==> runs[|runs| - 1].number <= r.number
  {
    if NewestFirst(runs) {
      forall r | r in runs ensures runs[|runs| - 1].number <= r.number {
        var i :| 0 <= i < |runs| && runs[i] == r;
        assert i == |runs| - 1 || runs[i].number > runs[|runs| - 1].number;
      }
    }
  }
}

=== FILE: decimal.dfy ===
/**
 Decimal rendering of integers as a JavaScript template literal (`${n}`) writes
 them, the matching parsers, and splitting a string on a separator character.
 The parsers are the partners of the renderers: every rendering parses back to
 the number it came from.
 */
module Decimal {
  import opened Wrappers

  predicate IsDigit(c: char) {
    '0' <= c <= '9'
  }

  predicate AllDigits(s: string) {
    forall i :: 0 <= i < |s| ==> IsDigit(s[i])
  }

  function DigitValue(c: char): (d: nat)
    requires IsDigit(c)
    ensures d < 10
  {
    (c as int) - ('0' as int)
  }

  function DigitChar(d: nat): (c: char)
    requires d < 10
    ensures IsDigit(c) && DigitValue(c) == d
  {
    (('0' as int) + d) as char
  }

  /** The value of a string of digits, most significant digit first. */
  function DigitsValue(s: string): nat
    requires AllDigits(s)
    decreases |s|
  {
    if |s| == 0 then 0 else 10 * DigitsValue(s[..|s| - 1]) + DigitValue(s[|s| - 1])
  }

  /**
   The text of an integer as a template literal writes it: an optional minus
   sign, then digits, with no leading zero and no `-0`.
   */
  predicate Canonical(s: string) {
    && 1 <= |s|
    && (s[0] == '-' || IsDigit(s[0]))
    && (forall k :: 1 <= k < |s| ==> IsDigit(s[k]))
    && (s[0] == '0' ==> |s| == 1)
    && (s[0] == '-' ==> 2 <= |s| && s[1] != '0')
  }

  /** `${n}` for a non-negative integer: its digits, without sign or leading zeros. */
  function NatToString(n: nat): (s: string)
    ensures 1 <= |s| && AllDigits(s)
    ensures s[0] == '0' ==> n == 0 && |s| == 1
    decreases n
  {
    if n < 10 then [DigitChar(n)] else NatToString(n / 10) + [DigitChar(n % 10)]
  }

  /** `${i}` for any integer: a minus sign in front of the digits of a negative number. */
  function IntToString(i: int): (s: string)
    ensures 1 <= |s|
    ensures s[0] == '-' <==> i < 0
    ensures forall k :: 1 <= k < |s| ==> IsDigit(s[k])
    ensures Canonical(s)
  {
    if i < 0 then "-" + NatToString(-i) else NatToString(i)
  }

  /** A rendered integer holds no dot, so it stays one field when split at dots. */
  lemma DigitsHaveNoDot(s: string)
    requires forall k :: 1 <= k < |s| ==> IsDigit(s[k])
    requires 1 <= |s| && s[0] != '.'
    ensures '.' !in s
  {
  }

  /** Reads a non-empty string of digits. */
  function ParseNat(s: string): (r: Option<nat>)
    ensures r.Some? <==> 1 <= |s| && AllDigits(s)
  {
    if 1 <= |s| && AllDigits(s) then Some(DigitsValue(s)) else None
  }

  /** Reads an optional minus sign followed by a non-empty string of digits. */
  function ParseInt(s: string): (r: Option<int>)
    ensures r.Some? && r.value < 0 ==> 2 <= |s| && s[0] == '-'
  {
    if 1 <= |s| && s[0] == '-' then
      match ParseNat(s[1..])
      case Some(n) => Some(-(n as int))
      case None => None
    else
      match ParseNat(s)
      case Some(n) => Some(n)
      case None => None
  }

  lemma {:induction false} ParseNatToString(n: nat)
    ensures ParseNat(NatToString(n)) == Some(n)
    decreases n
  {
    var s := NatToString(n);
    if n < 10 {
      assert s[..0] == "";
      assert DigitsValue(s) == DigitValue(s[0]);
    } else {
      ParseNatToString(n / 10);
      assert s[..|s| - 1] == NatToString(n / 10);
      assert DigitsValue(s) == 10 * (n / 10) + n % 10;
    }
  }

  /** A string of digits with a non-zero lead has a value of at least 1. */
  lemma {:induction false} LeadingDigitPositive(s: string)
    requires 1 <= |s| && AllDigits(s) && s[0] != '0'
    ensures DigitsValue(s) >= 1
    decreases |s|
  {
    if |s| > 1 {
      LeadingDigitPositive(s[..|s| - 1]);
    } else {
      assert s[..0] == "";
    }
  }

  /** Digits without a leading zero are exactly the rendering of their value. */
  lemma {:induction false} CanonicalDigitsAreRendering(s: string)
    requires 1 <= |s| && AllDigits(s) && (s[0] == '0' ==> |s| == 1)
    ensures NatToString(DigitsValue(s)) == s
    decreases |s|
  {
    var n := DigitsValue(s);
    var init, last := s[..|s| - 1], s[|s| - 1];
    if |s| == 1 {
      assert init == "";
      assert DigitChar(DigitValue(last)) == last;
    } else {
      LeadingDigitPositive(init);
      CanonicalDigitsAreRendering(init);
      assert n / 10 == DigitsValue(init) && n % 10 == DigitValue(last);
      assert DigitChar(DigitValue(last)) == last;
      assert s == init + [last];
    }
  }

  /**
   The rendering is the only canonical text of an integer: a canonical string
   that parses as `i` is `IntToString(i)`.
   */
  lemma CanonicalIsRendering(s: string, i: int)
    requires Canonical(s) && ParseInt(s) == Some(i)
    ensures s == IntToString(i)
  {
    if s[0] == '-' {
      var t := s[1..];
      assert AllDigits(t);
      CanonicalDigitsAreRendering(t);
      assert s == "-" + t;
    } else {
      CanonicalDigitsAreRendering(s);
    }
  }

  lemma ParseIntToString(i: int)
    ensures ParseInt(IntToString(i)) == Some(i)
  {
    if i < 0 {
      ParseNatToString(-i);
      assert IntToString(i)[1..] == NatToString(-i);
    } else {
      ParseNatToString(i);
    }
  }

  /** Splits `s` at every occurrence of `sep`, as JavaScript's `split` with a one-character separator. */
  function Split(s: string, sep: char): (parts: seq<string>)
    ensures 1 <= |parts|
    ensures forall i :: 0 <= i < |parts| ==> sep !in parts[i]
    decreases |s|
  {
    if |s| == 0 then [""]
    else
      var rest := Split(s[1..], sep);
      if s[0] == sep then [""] + rest else [[s[0]] + rest[0]] + rest[1..]
  }

  /** Puts the parts back together with `sep` between neighbours. */
  function Join(parts: seq<string>, sep: char): string
    decreases |parts|
  {
    if |parts| == 0 then ""
    else if |parts| == 1 then parts[0]
    else parts[0] + [sep] + Join(parts[1..], sep)
  }

  lemma {:induction false} JoinSplit(s: string, sep: char)
    ensures Join(Split(s, sep), sep) == s
    decreases |s|
  {
    if |s| > 0 {
      JoinSplit(s[1..], sep);
      var rest := Split(s[1..], sep);
      if s[0] == sep {
        assert Split(s, sep)[1..] == rest;
      } else if |rest| == 1 {
        assert Split(s, sep) == [[s[0]] + rest[0]];
      } else {
        var parts := Split(s, sep);
        assert parts[1..] == rest[1..];
        assert Join(rest, sep) == rest[0] + [sep] + Join(rest[1..], sep);
      }
    }
  }

  /** A string without the separator is a single field. */
  lemma {:induction false} SplitWithoutSeparator(a: string, sep: char)
    requires sep !in a
    ensures Split(a, sep) == [a]
    decreases |a|
  {
    if |a| > 0 {
      SplitWithoutSeparator(a[1..], sep);
      assert [a[0]] + a[1..] == a;
    }
  }

  /** The text before the first separator is the first field, and the rest is split on its own. */
  lemma {:induction false} SplitAtFirstSeparator(a: string, sep: char, b: string)
    requires sep !in a
    ensures Split(a + [sep] + b, sep) == [a] + Split(b, sep)
    decreases |a|
  {
    if |a| == 0 {
      assert a + [sep] + b == [sep] + b;
      assert ([sep] + b)[1..] == b;
    } else {
      var s := a + [sep] + b;
      assert s[1..] == a[1..] + [sep] + b;
      SplitAtFirstSeparator(a[1..], sep, b);
      assert [a[0]] + a[1..] == a;
    }
  }
}

=== FILE: intended.dfy ===
/**
 Two places where the code as written differs from what it evidently means,
 each modelled both ways: the version written from the match array instead of
 the captured digits, and the week filter that ignores the year.
 */
module Intended {
  import opened Wrappers
  import opened Decimal
  import opened Weeks
  import opened BuildIndex
  import opened VersionLine
  import opened Patcher

  /** Reads `major.yy.week.build` back out of a quoted version string. */
  function ReadVersionString(v: string): Option<(string, VersionParts)> {
    var major := Split(v, '.')[0];
    if 1 <= |major| && AllDigits(major) && |major| < |v| then
      match ParseSuffix(v[|major| + 1..])
      case Some(p) => Some((major, p))
      case None => None
    else
      None
  }

  /** Reads the version back out of a declaration `[assembly: AssemblyVersion("...")]`. */
  function ReadDeclaredVersion(decl: string): Option<(string, VersionParts)> {
    var n := |Head| + 1;
    if |decl| >= n + 3 && decl[..n] == Head + "\"" && decl[|decl| - 3..] == "\")]" then
      ReadVersionString(decl[n..|decl| - 3])
    else
      None
  }

  /** The declaration the code evidently means to write: the captured digits, then the suffix. */
  function IntendedDeclaration(major: string, suffix: string): string {
    Head + "\"" + major + "." + suffix + "\")]"
  }

  lemma ReadQuoted(inner: string)
    ensures ReadDeclaredVersion(Head + "\"" + inner + "\")]") == ReadVersionString(inner)
  {
    var decl := Head + "\"" + inner + "\")]";
    var n := |Head| + 1;
    assert decl[..n] == Head + "\"";
    assert decl[|decl| - 3..] == "\")]";
    assert decl[n..|decl| - 3] == inner;
  }

  /** The worked example: major version 5 and suffix 24.2.3, as written and as intended. */
  lemma MatchArrayExample()
    ensures NewDeclaration("5", "24.2.3") == "[assembly: AssemblyVersion(\"\"5.,5.24.2.3\")]"
    ensures IntendedDeclaration("5", "24.2.3") == "[assembly: AssemblyVersion(\"5.24.2.3\")]"
  {
  }

  /** A version string whose first field starts with a quote is not a version. */
  lemma QuotedFieldUnreadable(major: string, rest: string)
    requires '.' !in major
    ensures ReadVersionString("\"" + major + "." + rest) == None
  {
    var first := "\"" + major;
    assert "\"" + major + "." + rest == first + ['.'] + rest;
    SplitAtFirstSeparator(first, '.', rest);
    assert !IsDigit(first[0]);
  }

  /** A major version, a dot and a rendered suffix read back as the parts they came from. */
  lemma VersionStringRoundTrip(major: string, v: VersionParts)
    requires 1 <= |major| && AllDigits(major)
    ensures ReadVersionString(major + "." + VersionSuffix(v)) == Some((major, v))
  {
    var sfx := VersionSuffix(v);
    var inner := major + "." + sfx;
    assert '.' !in major;
    SplitAtFirstSeparator(major, '.', sfx);
    assert inner[|major| + 1..] == sfx;
  }

  /** As written, the declaration is no longer a dotted version: its first field is `"M`, not digits. */
  lemma AsWrittenDeclarationUnreadable(major: string, v: VersionParts)
    requires 1 <= |major| && AllDigits(major)
    ensures ReadDeclaredVersion(NewDeclaration(major, VersionSuffix(v))) == None
  {
    var sfx := VersionSuffix(v);
    var inner := "\"" + major + "." + ("," + major + "." + sfx);
    AsWrittenQuotedField(major, sfx);
    ReadQuoted(inner);
    QuotedFieldUnreadable(major, "," + major + "." + sfx);
  }

  /** The declaration as written, seen as a quoted field whose text starts with `"M.`. */
  lemma AsWrittenQuotedField(major: string, suffix: string)
    ensures NewDeclaration(major, suffix) == Head + "\"" + ("\"" + major + "." + ("," + major + "." + suffix)) + "\")]"
  {
  }

  /** The intended declaration reads back as the major version it kept and the parts it was given. */
  lemma IntendedDeclarationRoundTrip(major: string, v: VersionParts)
    requires 1 <= |major| && AllDigits(major)
    ensures ReadDeclaredVersion(IntendedDeclaration(major, VersionSuffix(v))) == Some((major, v))
  {
    var sfx := VersionSuffix(v);
    var inner := major + "." + sfx;
    assert IntendedDeclaration(major, sfx) == Head + "\"" + inner + "\")]";
    ReadQuoted(inner);
    VersionStringRoundTrip(major, v);
  }

  /**
   The next run still finds the same major version in the declaration written
   as-is: the first quote is followed by a quote, the second by the digits and a
   dot. So the malformed form does not grow from run to run.
   */
  lemma AsWrittenMajorSurvivesRepatch(major: string, suffix: string)
    requires 1 <= |major| && AllDigits(major)
    ensures var decl := NewDeclaration(major, suffix);
      && FindMajor(decl).Some?
      && decl[FindMajor(decl).value.start + 1..FindMajor(decl).value.end] == major
  {
    var decl := NewDeclaration(major, suffix);
    var pre := Head + "\"";
    var rest := "," + major + "." + suffix + "\")]";
    assert decl == pre + "\"" + major + "." + rest;
    HeadChars();
    MajorAfterPrefix(pre, major, rest);
    var j, k := |pre|, |pre| + 1 + |major|;
    FindsLeftmostMajor(decl, j, k);
    assert decl[j + 1..k] == major;
  }

  predicate InCurrentWeek(r: Run, now: Timestamp) {
    r.created.year == now.year && WeekOf(r.created) == WeekOf(now)
  }

  /** The filter the numbering evidently intends: runs of the current week of the current year. */
  function SameYearWeekRuns(runs: seq<Run>, now: Timestamp): (kept: seq<Run>)
    ensures forall i :: 0 <= i < |kept| ==> kept[i].created.year == now.year && WeekOf(kept[i].created) == WeekOf(now)
    ensures forall r :: multiset(kept)[r] == if InCurrentWeek(r, now) then multiset(runs)[r] else 0
    decreases |runs|
  {
    if |runs| == 0 then []
    else
      assert runs == [runs[0]] + runs[1..];
      var r := runs[0];
      (if InCurrentWeek(r, now) then [r] else [])
        + SameYearWeekRuns(runs[1..], now)
  }

  function IntendedVersionOf(now: Timestamp, currentRunNumber: int, runs: seq<Run>): VersionParts {
    var kept := SameYearWeekRuns(runs, now);
    VersionParts(YearTwoDigit(now.year), WeekOf(now), currentRunNumber - FirstRunNumberOfWeek(kept, currentRunNumber))
  }

  /** As written, a run from the same week number of the previous year counts as this week's first run. */
  lemma PriorYearRunCountsThisWeek()
    ensures var now := Timestamp(2024, 9 * MillisPerDay);
      var lastYear := Run(40, Timestamp(2023, 9 * MillisPerDay));
      && VersionOf(now, 100, [lastYear]).buildId == 60
      && IntendedVersionOf(now, 100, [lastYear]).buildId == 0
  {
    var now := Timestamp(2024, 9 * MillisPerDay);
    var lastYear := Run(40, Timestamp(2023, 9 * MillisPerDay));
    assert [lastYear][1..] == [];
    assert SameWeekRuns([lastYear], WeekOf(now)) == [lastYear];
    assert SameYearWeekRuns([lastYear], now) == [];
  }

  /** With the intended filter, runs of other years never move the build index. */
  lemma IntendedIgnoresOtherYears(now: Timestamp, currentRunNumber: int, runs: seq<Run>)
    requires forall i :: 0 <= i < |runs| ==> !InCurrentWeek(runs[i], now)
    ensures IntendedVersionOf(now, currentRunNumber, runs).buildId == 0
  {
  }

  /** The intended filter drops a run outside the current week of the current year wherever it is listed. */
  lemma {:induction false} SameYearWeekRunsSkip(a: seq<Run>, r: Run, b: seq<Run>, now: Timestamp)
    requires !InCurrentWeek(r, now)
    ensures SameYearWeekRuns(a + [r] + b, now) == SameYearWeekRuns(a + b, now)
    decreases |a|
  {
    if |a| == 0 {
      assert a + [r] + b == [r] + b && ([r] + b)[1..] == b;
      assert a + b == b;
    } else {
      assert (a + [r] + b)[1..] == a[1..] + [r] + b;
      assert (a + b)[1..] == a[1..] + b;
      SameYearWeekRunsSkip(a[1..], r, b, now);
    }
  }

  /**
   With the intended filter, a run from another year leaves the version unchanged,
   whether it is listed before, among or after this week's runs.
   */
  lemma IntendedIgnoresOtherYearRun(now: Timestamp, currentRunNumber: int, a: seq<Run>, r: Run, b: seq<Run>)
    requires r.created.year != now.year
    ensures IntendedVersionOf(now, currentRunNumber, a + [r] + b) == IntendedVersionOf(now, currentRunNumber, a + b)
  {
    SameYearWeekRunsSkip(a, r, b, now);
  }
}

=== FILE: patcher.dfy ===
/**
 The per-file step of `main`: find the version line, take the major version
 from it, build the new declaration and replace the first occurrence of the old
 declaration text. A file without a version line, or whose version line has no
 major version, is skipped with a warning and left as it was.
 */
module Patcher {
  import opened Wrappers
  import opened Decimal
  import opened VersionLine
  import opened BuildIndex

  /** `"` followed by one or more ASCII digits and a `.`, with the quote at `j` and the dot at `k`. */
  predicate MajorAt(s: string, j: nat, k: nat) {
    && j + 1 < k < |s|
    && s[j] == '"'
    && s[k] == '.'
    && forall i :: j < i < k ==> IsDigit(s[i])
  }

  /** The end of the run of digits that starts at `i`. */
  function DigitRunEnd(s: string, i: nat): (k: nat)
    requires i <= |s|
    ensures i <= k <= |s|
    ensures forall m :: i <= m < k ==> IsDigit(s[m])
    ensures k < |s| ==> !IsDigit(s[k])
    decreases |s| - i
  {
    if i < |s| && IsDigit(s[i]) then DigitRunEnd(s, i + 1) else i
  }

  /** Once the quote is fixed, `\d+` is greedy and the dot is not a digit, so the dot is fixed too. */
  lemma MajorAtIsDigitRun(s: string, j: nat)
    requires j + 1 <= |s|
    ensures forall k: nat :: MajorAt(s, j, k) ==> k == DigitRunEnd(s, j + 1)
  {
  }

  /** The leftmost `"digits.` at or after `j`. */
  function MajorFrom(s: string, j: nat): (m: Option<Span>)
    requires j <= |s|
    ensures m.Some? ==> j <= m.value.start && MajorAt(s, m.value.start, m.value.end)
    ensures m.Some? ==> forall j': nat, k: nat :: j <= j' < m.value.start ==> !MajorAt(s, j', k)
    ensures m.None? ==> forall j': nat, k: nat :: j <= j' ==> !MajorAt(s, j', k)
    decreases |s| - j
  {
    if j == |s| then None
    else
      MajorAtIsDigitRun(s, j);
      var k := DigitRunEnd(s, j + 1);
      if s[j] == '"' && k > j + 1 && k < |s| && s[k] == '.' then Some(Span(j, k))
      else MajorFrom(s, j + 1)
  }

  /** `versionLine.match(/"(\d+)\./)` on the captured declaration. */
  function FindMajor(decl: string): (m: Option<Span>)
    ensures m.Some? ==> MajorAt(decl, m.value.start, m.value.end)
    ensures m.Some? ==> forall j: nat, k: nat :: j < m.value.start ==> !MajorAt(decl, j, k)
    ensures m.None? ==> forall j: nat, k: nat :: !MajorAt(decl, j, k)
  {
    MajorFrom(decl, 0)
  }

  /** `s[i..]` starts with `pat`. */
  predicate OccursAt(s: string, pat: string, i: nat) {
    i + |pat| <= |s| && s[i..i + |pat|] == pat
  }

  /** The leftmost occurrence of `pat` at or after `i`. */
  function IndexOfFrom(s: string, pat: string, i: nat): (f: Option<nat>)
    requires i <= |s|
    ensures f.Some? ==> i <= f.value && OccursAt(s, pat, f.value)
    ensures f.Some? ==> forall g: nat :: i <= g < f.value ==> !OccursAt(s, pat, g)
    ensures f.None? ==> forall g: nat :: i <= g ==> !OccursAt(s, pat, g)
    decreases |s| - i
  {
    if OccursAt(s, pat, i) then Some(i)
    else if i == |s| then None
    else IndexOfFrom(s, pat, i + 1)
  }

  /** `String.prototype.replace` with a string pattern: only the first occurrence is replaced. */
  function ReplaceFirst(s: string, pat: string, replacement: string): (r: string)
    ensures (forall g: nat :: !OccursAt(s, pat, g)) ==> r == s
    ensures forall f: nat :: OccursAt(s, pat, f) && (forall g: nat :: g < f ==> !OccursAt(s, pat, g)) ==>
      r == s[..f] + replacement + s[f + |pat|..]
  {
    match IndexOfFrom(s, pat, 0)
    case None => s
    case Some(f) => s[..f] + replacement + s[f + |pat|..]
  }

  /**
   How a JavaScript template literal renders the match array `['"D.', 'D']`
   of the major version: the array's elements joined by a comma.
   */
  function MatchArrayString(major: string): (s: string)
    ensures s == Join(["\"" + major + ".", major], ',')
  {
    assert ["\"" + major + ".", major][1..] == [major];
    "\"" + major + "." + "," + major
  }

  /**
   The declaration written back, exactly as the code builds it. Unless the
   digits or the suffix hold a `)`, it is itself a version line again.
   */
  function NewDeclaration(major: string, suffix: string): (nd: string)
    ensures ')' !in major && ')' !in suffix ==> VersionLineAt(nd, 0, |nd|)
  {
    var body := "\"" + MatchArrayString(major) + "." + suffix + "\"";
    if ')' !in major && ')' !in suffix then
      WholeDeclarationIsVersionLine(body);
      Head + body + Tail
    else
      Head + body + Tail
  }

  datatype SkipReason = MissingVersionLine | MissingMajorVersion

  /** What happens to one file: rewritten with new text, or skipped with a warning. */
  datatype PatchOutcome = Patched(text: string) | Skipped(reason: SkipReason)

  /**
   The body of the `forEach` callback for one file's text and the computed suffix.
   A file is patched only if it holds a version line, and is skipped for want of
   one only if it holds none.
   */
  function PatchFile(text: string, suffix: string): (o: PatchOutcome)
    ensures o.Patched? ==> exists d: nat, q: nat :: VersionLineAt(text, d, q)
    ensures o == Skipped(MissingVersionLine) ==> forall d: nat, q: nat :: !VersionLineAt(text, d, q)
  {
    match FindVersionLine(text)
    case None => Skipped(MissingVersionLine)
    case Some(line) =>
      var decl := text[line.start..line.end];
      match FindMajor(decl)
      case None => Skipped(MissingMajorVersion)
      case Some(mj) =>
        Patched(ReplaceFirst(text, decl, NewDeclaration(decl[mj.start + 1..mj.end], suffix)))
  }

  /** The text the file holds afterwards: a skipped file is never written. */
  function FileAfter(text: string, outcome: PatchOutcome): string {
    match outcome
    case Patched(t) => t
    case Skipped(_) => text
  }

  /** The leftmost version line is what the matcher returns. */
  lemma FindsLeftmostVersionLine(text: string, d: nat, q: nat)
    requires VersionLineAt(text, d, q)
    requires forall d': nat, q': nat :: d' < d ==> !VersionLineAt(text, d', q')
    ensures FindVersionLine(text) == Some(Span(d, q))
  {
    var sp := FindVersionLine(text).value;
    DeclarationEndUnique(text, d, sp.end, q);
  }

  /** The leftmost major version is what the matcher returns. */
  lemma FindsLeftmostMajor(decl: string, j: nat, k: nat)
    requires MajorAt(decl, j, k)
    requires forall j': nat, k': nat :: j' < j ==> !MajorAt(decl, j', k')
    ensures FindMajor(decl) == Some(Span(j, k))
  {
    MajorAtIsDigitRun(decl, j);
  }

  /** A file is skipped for want of a version line exactly when no version line is anywhere in it. */
  lemma SkipWithoutVersionLine(text: string, suffix: string)
    ensures PatchFile(text, suffix) == Skipped(MissingVersionLine)
      <==> forall d: nat, q: nat :: !VersionLineAt(text, d, q)
    ensures PatchFile(text, suffix).Skipped? ==> FileAfter(text, PatchFile(text, suffix)) == text
  {
  }

  /**
   A file whose leftmost version line is text[d..q] is skipped for want of a
   major version exactly when that declaration holds no `"digits.`.
   */
  lemma SkipWithoutMajorVersion(text: string, suffix: string, d: nat, q: nat)
    requires VersionLineAt(text, d, q)
    requires forall d': nat, q': nat :: d' < d ==> !VersionLineAt(text, d', q')
    ensures PatchFile(text, suffix) == Skipped(MissingMajorVersion)
      <==> forall j: nat, k: nat :: !MajorAt(text[d..q], j, k)
  {
    FindsLeftmostVersionLine(text, d, q);
  }

  /**
   The patched text: the leftmost version line text[d..q] names the declaration,
   its leftmost `"digits.` at j..k names the major version, and the FIRST
   occurrence of the declaration anywhere in the text, at f <= d, is replaced.
   Everything before and after that occurrence is kept as it was.
   */
  lemma PatchReplacesFirstOccurrence(text: string, suffix: string, d: nat, q: nat, j: nat, k: nat, f: nat)
    requires VersionLineAt(text, d, q)
    requires forall d': nat, q': nat :: d' < d ==> !VersionLineAt(text, d', q')
    requires MajorAt(text[d..q], j, k)
    requires forall j': nat, k': nat :: j' < j ==> !MajorAt(text[d..q], j', k')
    requires OccursAt(text, text[d..q], f)
    requires forall g: nat :: g < f ==> !OccursAt(text, text[d..q], g)
    ensures f <= d
    ensures text == text[..f] + text[d..q] + text[f + (q - d)..]
    ensures PatchFile(text, suffix)
      == Patched(text[..f] + NewDeclaration(text[d..q][j + 1..k], suffix) + text[f + (q - d)..])
  {
    var decl := text[d..q];
    assert OccursAt(text, decl, d);
    FindsLeftmostVersionLine(text, d, q);
    FindsLeftmostMajor(decl, j, k);
    FindsFirstOccurrence(text, decl, f);
    PatchFileFound(text, suffix, Span(d, q), Span(j, k), f);
    SplitAtOccurrence(text, decl, f);
  }

  /** PatchFile once the three searches have returned. */
  lemma PatchFileFound(text: string, suffix: string, line: Span, mj: Span, f: nat)
    requires FindVersionLine(text) == Some(line)
    requires FindMajor(text[line.start..line.end]) == Some(mj)
    requires IndexOfFrom(text, text[line.start..line.end], 0) == Some(f)
    ensures var decl := text[line.start..line.end];
      PatchFile(text, suffix) == Patched(text[..f] + NewDeclaration(decl[mj.start + 1..mj.end], suffix) + text[f + |decl|..])
  {
  }

  lemma SplitAtOccurrence(s: string, pat: string, f: nat)
    requires OccursAt(s, pat, f)
    ensures s == s[..f] + pat + s[f + |pat|..]
  {
    assert s == s[..f] + s[f..f + |pat|] + s[f + |pat|..];
  }

  lemma FindsFirstOccurrence(text: string, pat: string, f: nat)
    requires OccursAt(text, pat, f)
    requires forall g: nat :: g < f ==> !OccursAt(text, pat, g)
    ensures IndexOfFrom(text, pat, 0) == Some(f)
  {
  }

  /** The new declaration holds no `$`, so `replace` inserts it literally. */
  lemma ReplacementIsLiteral(major: string, v: VersionParts)
    requires AllDigits(major)
    ensures '$' !in NewDeclaration(major, VersionSuffix(v))
  {
    var y, w, b := IntToString(v.yearTwoDigit), NatToString(v.week), IntToString(v.buildId);
    assert '$' !in y && '$' !in w && '$' !in b;
    HeadChars();
    assert '$' !in Head;
    assert '$' !in MatchArrayString(major);
    assert NewDeclaration(major, VersionSuffix(v)) == Head + ("\"" + MatchArrayString(major) + "." + VersionSuffix(v) + "\")]");
  }

  /** The declaration `Head + body + Tail`, where `body` is non-empty and free of `)`. */
  lemma WholeDeclarationIsVersionLine(body: string)
    requires 1 <= |body| && ')' !in body
    ensures VersionLineAt(Head + body + Tail, 0, |Head + body + Tail|)
  {
    var text := Head + body + Tail;
    var q := |text|;
    assert text[0..|Head|] == Head;
    assert text[q - 2..q] == Tail;
    forall i | |Head| <= i < q - 2 ensures text[i] != ')' {
      assert text[i] == body[i - |Head|];
    }
  }

  /** The declaration head holds neither a quote nor a `$`. */
  lemma HeadChars()
    ensures forall i :: 0 <= i < |Head| ==> Head[i] != '"' && Head[i] != '$'
  {
  }

  /**
   After a prefix that has a quote at most as its last character, the leftmost
   `"digits.` is the one that opens `"major.`.
   */
  lemma MajorAfterPrefix(pre: string, major: string, rest: string)
    requires 1 <= |major| && AllDigits(major)
    requires forall i :: 0 <= i < |pre| - 1 ==> pre[i] != '"'
    ensures var s := pre + "\"" + major + "." + rest;
      && MajorAt(s, |pre|, |pre| + 1 + |major|)
      && forall j': nat, k': nat :: j' < |pre| ==> !MajorAt(s, j', k')
  {
    var s := pre + "\"" + major + "." + rest;
    var j, k := |pre|, |pre| + 1 + |major|;
    forall i | j < i < k ensures IsDigit(s[i]) {
      assert s[i] == major[i - j - 1];
    }
    forall j': nat, k': nat | j' < j ensures !MajorAt(s, j', k') {
      if j' < |pre| - 1 {
        assert s[j'] == pre[j'];
      } else {
        assert s[j' + 1] == '"';
      }
    }
  }

  /**
   A file that is nothing but one declaration `[assembly: AssemblyVersion("M.rest)]`
   with M a non-empty string of digits becomes the new declaration for M.
   */
  lemma PatchSingleDeclaration(text: string, major: string, rest: string, suffix: string)
    requires 1 <= |major| && AllDigits(major)
    requires ')' !in rest
    requires text == Head + "\"" + major + "." + rest + Tail
    ensures PatchFile(text, suffix) == Patched(NewDeclaration(major, suffix))
  {
    SingleDeclarationSearches(text, major, rest);
    PatchWholeFile(text, suffix, Span(|Head|, |Head| + 1 + |major|), major);
  }

  /** A file that is its own version line, with major version M, gets its whole text replaced. */
  lemma PatchWholeFile(text: string, suffix: string, mj: Span, major: string)
    requires FindVersionLine(text) == Some(Span(0, |text|))
    requires FindMajor(text) == Some(mj)
    requires mj.start + 1 <= mj.end <= |text| && text[mj.start + 1..mj.end] == major
    ensures PatchFile(text, suffix) == Patched(NewDeclaration(major, suffix))
  {
    assert text[0..|text|] == text;
    assert OccursAt(text, text, 0);
    PatchFileFound(text, suffix, Span(0, |text|), mj, 0);
    var nd := NewDeclaration(major, suffix);
    assert text[..0] + nd + text[|text|..] == nd;
  }

  /** In a file that is exactly one declaration, the three searches find the whole file, `"M.`, and offset 0. */
  lemma SingleDeclarationSearches(text: string, major: string, rest: string)
    requires 1 <= |major| && AllDigits(major)
    requires ')' !in rest
    requires text == Head + "\"" + major + "." + rest + Tail
    ensures FindVersionLine(text) == Some(Span(0, |text|))
    ensures FindMajor(text) == Some(Span(|Head|, |Head| + 1 + |major|))
    ensures text[|Head| + 1..|Head| + 1 + |major|] == major
  {
    SingleDeclarationLine(text, major, rest);
    SingleDeclarationMajor(text, major, rest);
  }

  lemma SingleDeclarationLine(text: string, major: string, rest: string)
    requires ')' !in major && ')' !in rest
    requires text == Head + "\"" + major + "." + rest + Tail
    ensures FindVersionLine(text) == Some(Span(0, |text|))
  {
    var body := "\"" + major + "." + rest;
    assert text == Head + body + Tail;
    WholeDeclarationIsVersionLine(body);
    FindsLeftmostVersionLine(text, 0, |text|);
  }

  lemma SingleDeclarationMajor(text: string, major: string, rest: string)
    requires 1 <= |major| && AllDigits(major)
    requires text == Head + "\"" + major + "." + rest + Tail
    ensures FindMajor(text) == Some(Span(|Head|, |Head| + 1 + |major|))
    ensures text[|Head| + 1..|Head| + 1 + |major|] == major
  {
    assert text == Head + "\"" + major + "." + (rest + Tail);
    HeadChars();
    MajorAfterPrefix(Head, major, rest + Tail);
    FindsLeftmostMajor(text, |Head|, |Head| + 1 + |major|);
  }
}

=== FILE: version_line.dfy ===
/**
 A matcher for the one fixed pattern that locates the version declaration:

   (^|\r\n|\n)(\[assembly: AssemblyVersion\([^)]+\)])($|\r\n|\n |\t)

 with no flags, so `^` and `$` are the start and end of the whole text. A
 declaration starts at `d` and ends before `q`; what the regular expression
 captures as its second group is `s[d..q]`.
 */
module VersionLine {
  import opened Wrappers

  const Head: string := "[assembly: AssemblyVersion("
  const Tail: string := ")]"

  /** A half-open index range [start, end) of a string. */
  datatype Span = Span(start: nat, end: nat)

  /** The first group: start of text, or `\r\n` or `\n` immediately before `d`. */
  predicate PrecededAt(s: string, d: nat)
    requires d <= |s|
  {
    || d == 0
    || (d >= 2 && s[d - 2..d] == "\r\n")
    || (d >= 1 && s[d - 1] == '\n')
  }

  /** The third group: end of text, `\r\n`, `\n` followed by a space, or a tab at `q`. */
  predicate FollowedAt(s: string, q: nat)
    requires q <= |s|
  {
    || q == |s|
    || (q + 2 <= |s| && s[q..q + 2] == "\r\n")
    || (q + 2 <= |s| && s[q..q + 2] == "\n ")
    || (q + 1 <= |s| && s[q] == '\t')
  }

  /** The second group: the head, one or more characters other than `)`, then `)]`. */
  predicate DeclarationAt(s: string, d: nat, q: nat) {
    && d + |Head| + 1 + |Tail| <= q <= |s|
    && s[d..d + |Head|] == Head
    && s[q - 2..q] == Tail
    && forall k :: d + |Head| <= k < q - 2 ==> s[k] != ')'
  }

  predicate VersionLineAt(s: string, d: nat, q: nat) {
    && DeclarationAt(s, d, q)
    && PrecededAt(s, d)
    && FollowedAt(s, q)
  }

  /** The index of the first `)` at or after `i`. */
  function CloseParenFrom(s: string, i: nat): (p: Option<nat>)
    requires i <= |s|
    ensures p.Some? ==> i <= p.value < |s| && s[p.value] == ')'
    ensures p.Some? ==> forall k :: i <= k < p.value ==> s[k] != ')'
    ensures p.None? ==> forall k :: i <= k < |s| ==> s[k] != ')'
    decreases |s| - i
  {
    if i == |s| then None
    else if s[i] == ')' then Some(i)
    else CloseParenFrom(s, i + 1)
  }

  /**
   The end of the declaration starting at `d`, if one does. `[^)]+` is greedy
   and cannot cross a `)`, so the declaration can only end just after the first
   `)` that follows the head.
   */
  function DeclarationEnd(s: string, d: nat): (q: Option<nat>)
    requires d <= |s|
    ensures q.Some? ==> DeclarationAt(s, d, q.value)
    ensures q.None? ==> forall e: nat :: !DeclarationAt(s, d, e)
  {
    DeclarationClosesAtFirstParen(s, d);
    if d + |Head| <= |s| && s[d..d + |Head|] == Head then
      match CloseParenFrom(s, d + |Head|)
      case Some(p) =>
        if p > d + |Head| && p + 1 < |s| && s[p + 1] == ']' then
          assert s[p..p + 2] == Tail;
          Some(p + 2)
        else
          None
      case None =>
        None
    else
      None
  }

  lemma DeclarationClosesAtFirstParen(s: string, d: nat)
    requires d <= |s|
    ensures forall e: nat :: DeclarationAt(s, d, e) ==>
      && d + |Head| <= |s|
      && CloseParenFrom(s, d + |Head|) == Some(e - 2)
      && s[e - 1] == ']'
  {
    forall e: nat | DeclarationAt(s, d, e)
      ensures CloseParenFrom(s, d + |Head|) == Some(e - 2) && s[e - 1] == ']'
    {
      assert s[e - 2] == ')';
      assert s[e - 2..e][1] == ']';
    }
  }

  /** A declaration ends at one place only. */
  lemma DeclarationEndUnique(s: string, d: nat, q1: nat, q2: nat)
    requires DeclarationAt(s, d, q1) && DeclarationAt(s, d, q2)
    ensures q1 == q2
  {
    assert s[q1 - 2] == ')' && s[q2 - 2] == ')';
  }

  /** The leftmost version line at or after `d`. */
  function FindVersionLineFrom(s: string, d: nat): (m: Option<Span>)
    requires d <= |s|
    ensures m.Some? ==> d <= m.value.start && VersionLineAt(s, m.value.start, m.value.end)
    ensures m.Some? ==> forall d': nat, q: nat :: d <= d' < m.value.start ==> !VersionLineAt(s, d', q)
    ensures m.None? ==> forall d': nat, q: nat :: d <= d' ==> !VersionLineAt(s, d', q)
    decreases |s| - d
  {
    var e := DeclarationEnd(s, d);
    if PrecededAt(s, d) && e.Some? && FollowedAt(s, e.value) then
      Some(Span(d, e.value))
    else
      assert forall q: nat :: !VersionLineAt(s, d, q) by {
        forall q: nat | VersionLineAt(s, d, q) ensures false {
          DeclarationEndUnique(s, d, q, e.value);
        }
      }
      if d == |s| then None else FindVersionLineFrom(s, d + 1)
  }

  /** `assemblyInfo.match(...)`: the leftmost version line of the whole text. */
  function FindVersionLine(s: string): (m: Option<Span>)
    ensures m.Some? ==> VersionLineAt(s, m.value.start, m.value.end)
    ensures m.Some? ==> forall d: nat, q: nat :: d < m.value.start ==> !VersionLineAt(s, d, q)
    ensures m.None? ==> forall d: nat, q: nat :: !VersionLineAt(s, d, q)
  {
    FindVersionLineFrom(s, 0)
  }

  /**
   Where the regular expression's match begins for the declaration at `d`: at
   `d` itself after `^`, two characters earlier after `\r\n`, one after `\n`.
   */
  function MatchStart(s: string, d: nat): nat
    requires d <= |s|
  {
    if d == 0 then 0
    else if d >= 2 && s[d - 2..d] == "\r\n" then d - 2
    else d - 1
  }

  /**
   A later declaration always starts a later match, so the leftmost match of
   the regular expression is the version line with the smallest `d`.
   */
  lemma LeftmostDeclarationIsLeftmostMatch(s: string, d1: nat, q1: nat, d2: nat, q2: nat)
    requires VersionLineAt(s, d1, q1) && VersionLineAt(s, d2, q2)
    requires d1 < d2
    ensures MatchStart(s, d1) < MatchStart(s, d2)
  {
    assert s[d2 - 1] == '\n';
    NoNewlineInHead(s, d1);
  }

  lemma NoNewlineInHead(s: string, d: nat)
    requires d + |Head| <= |s| && s[d..d + |Head|] == Head
    ensures forall e :: d <= e < d + |Head| ==> s[e] != '\n'
  {
    forall e | d <= e < d + |Head| ensures s[e] != '\n' {
      assert s[e] == Head[e - d];
    }
  }
}

=== FILE: week_number.dfy ===
/**
 The week-of-year arithmetic of `getWeekNumber`: the milliseconds elapsed since
 local 1 January 00:00 are rounded up to whole days, and the days rounded up to
 whole weeks. This is not ISO 8601 week numbering; midnight on 1 January itself
 is week 0 and every later instant of the first seven days is week 1.
 */
module Weeks {

  const MillisPerDay: nat := 1000 * 60 * 60 * 24
  const DaysPerWeek: nat := 7
  const MillisPerWeek: nat := MillisPerDay * DaysPerWeek

  /** Integer ceiling of a / b, the exact value of `Math.ceil(a / b)` for naturals. */
  function CeilDiv(a: nat, b: nat): (r: nat)
    requires b > 0
    ensures (r - 1) * b < a <= r * b
  {
    var r := (a + b - 1) / b;
    assert a + b - 1 == r * b + (a + b - 1) % b;
    assert (r - 1) * b == r * b - b;
    r
  }

  lemma MulMonotone(x: int, y: int, b: nat)
    requires x <= y
    ensures x * b <= y * b
  {
    assert y * b - x * b == (y - x) * b;
  }

  /** The ceiling is the only number whose bucket ((r - 1) * b, r * b] holds a. */
  lemma CeilDivUnique(a: nat, b: nat, r: int)
    requires b > 0
    requires (r - 1) * b < a <= r * b
    ensures r == CeilDiv(a, b)
  {
    var c := CeilDiv(a, b);
    if r < c {
      MulMonotone(r, c - 1, b);
    } else if r > c {
      MulMonotone(c, r - 1, b);
    }
  }

  /** Rounding up to days and then up to weeks is rounding up to weeks in one step. */
  lemma CeilDivNested(a: nat, b: nat, c: nat)
    requires b > 0 && c > 0
    ensures CeilDiv(CeilDiv(a, b), c) == CeilDiv(a, b * c)
  {
    var x := CeilDiv(a, b);
    var w := CeilDiv(x, c);
    MulMonotone(x, w * c, b);
    assert (w * c) * b == w * (b * c);
    MulMonotone((w - 1) * c, x - 1, b);
    assert ((w - 1) * c) * b == (w - 1) * (b * c);
    assert (x - 1) * b == x * b - b;
    CeilDivUnique(a, b * c, w);
  }

  /**
   `getWeekNumber` for an instant `elapsed` milliseconds after 1 January 00:00.
   Week w is the half-open bucket of instants ((w - 1) weeks, w weeks] after New Year.
   */
  function WeekNumber(elapsed: nat): (w: nat)
    ensures (w - 1) * MillisPerWeek < elapsed <= w * MillisPerWeek
  {
    CeilDivNested(elapsed, MillisPerDay, DaysPerWeek);
    CeilDiv(CeilDiv(elapsed, MillisPerDay), DaysPerWeek)
  }

  /** Rounding up to days and then to weeks is rounding up to weeks in one step. */
  lemma WeekBucket(elapsed: nat)
    ensures WeekNumber(elapsed) == CeilDiv(elapsed, MillisPerWeek)
  {
    CeilDivUnique(elapsed, MillisPerWeek, WeekNumber(elapsed));
  }

  lemma WeekZeroExactlyAtNewYear(elapsed: nat)
    ensures WeekNumber(elapsed) == 0 <==> elapsed == 0
  {
    WeekBucket(elapsed);
  }

  lemma FirstWeek(elapsed: nat)
    requires 0 < elapsed <= 7 * MillisPerDay
    ensures WeekNumber(elapsed) == 1
  {
    WeekBucket(elapsed);
  }

  /** Every instant of a year, leap years included, falls in a week from 0 to 53. */
  lemma WeekAtMost53(elapsed: nat)
    requires elapsed < 366 * MillisPerDay
    ensures WeekNumber(elapsed) <= 53
    ensures elapsed > 0 ==> 1 <= WeekNumber(elapsed)
  {
    WeekBucket(elapsed);
  }

  lemma WeekMonotone(e1: nat, e2: nat)
    requires e1 <= e2
    ensures WeekNumber(e1) <= WeekNumber(e2)
  {
    WeekBucket(e1);
    WeekBucket(e2);
    var w1, w2 := WeekNumber(e1), WeekNumber(e2);
    if w1 > w2 {
      MulMonotone(w2, w1 - 1, MillisPerWeek);
    }
  }
}

=== FILE: wrappers.dfy ===
/** The Option datatype used for the "not found" outcomes of the matchers and parsers. */
module Wrappers {

  datatype Option<+T> = None | Some(value: T)
}
